=== FILE: README.md ===
# Microblog engagement model

A Dafny model of the engagement and feed state machine of a small
Express/SQLite microblog (`server.js`). The database is an immutable record
`Store.Db`. It holds four tables: users, posts, like rows and reaction rows.
Every request handler is a function or method from a database to a reply
and a new database.

The model covers these handlers:

- the like toggle (`updatePostLikes`) and the reaction toggle (`updatePostReactions`);
- the home feed (`getPosts`, the page count of the home route);
- post deletion by its owner;
- renaming (`/changeUsername`);
- the account-deletion cascade (`/deleteAccount`);
- lookup, login and registration (`findUserByUsername`, `loginUser`, `registerUser`).

The central invariant is `Store.CountersMatch`: every post's stored `likes`
counter equals the number of like rows on that post. The like toggle keeps
it, and so do post deletion and the cascade. The model also proves:

- the feed is the unique ordering of all posts, cut into pages of nine;
- the emoji tally is the exact per-emoji count;
- the account cascade commits a declaratively described state, or rolls
  back completely;
- three defects of the code, each shown on a concrete or general input and
  each paired with a corrected definition (see Findings).

Modules follow the program's concerns: `Store` (tables and invariants),
`Text` (ASCII case folding and the blank test of `trim`), `Engagement`,
`Feed`, `Accounts` and `Identity`.

Behaviour of the code that a reader might not expect, modelled as written:

- A rename that changes only the case of the current name ("Bob" to "bob")
  is accepted. The same-name check at server.js:355 compares exactly in
  JavaScript, and the taken-name check at server.js:360 compares exactly
  under SQLite's default BINARY collation, which the model assumes for
  `username` (`Identity.RenameCaseOnly`).
- A feed requested without a logged-in viewer leaves `likedByCurrentUser`
  unset rather than `false`. The annotation at server.js:267-273 runs only
  when there is a current user (`Feed.GetPosts`, `None`).
- A like toggle on a missing post id is not rejected up front. It inserts or
  deletes the like row at server.js:298/306 and then fails reading the post
  back at :302/:308 (`Engagement.LikeOnMissingPostDangles`).
- The cascade matches authored posts by the exact username at
  server.js:393, again under the default BINARY collation. Post deletion (:190) and login (:600) compare
  case-insensitively. The cascade also deletes the post whose id equals
  the user id (:410).

## Model

| member | source | states |
|---|---|---|
| Engagement.ToggleLike | server.js:295-311 | a missing like row is inserted and an existing one deleted; on an existing post the counter moves by one in that direction and the reply is liked/unliked with the new counter; on a missing post the like change stays and the reply is the failure; users and reactions are untouched |
| Engagement.ToggleLikeKeepsCounters | server.js:295-311 | from a state where every counter equals its like-row count, the toggle keeps that true for every post and reports exactly the new number of like rows; it keeps every like row pointing at a post when the post exists |
| Engagement.ToggleLikeTwice | server.js:297-310 | liking then unliking (or the reverse) restores the whole database, whether or not the post exists |
| Engagement.LikeTwiceScenario | server.js:297-309 | the first like of a fresh post replies liked with 1, the second replies unliked with 0 |
| Engagement.LikeOnMissingPostDangles | server.js:297-303 | a like on a post id without a row fails yet leaves a like row pointing at no post |
| Engagement.CountByEmoji | server.js:323 | the grouped count has a key for exactly the emojis with at least one reaction row on the post, each mapped to its number of rows |
| Engagement.ToggleReaction | server.js:313-325 | the action is added exactly when the (post, user, emoji) row was absent; only that row flips; the returned counts tally the post's reactions after the flip |
| Engagement.FlipReaction | server.js:315-319 | the (post, user, emoji) row is present afterwards exactly when it was absent before, and every other reaction row keeps its presence |
| Engagement.FlipReactionTwice | server.js:315-319 | reacting twice with the same emoji restores the reaction rows |
| Engagement.TwoReactionsScenario | server.js:313-325 | on a post without reactions (other posts may have any, and they do not enter its tally), two users toggling the same emoji in turn: the second toggle reports the emoji added and the counts as exactly that emoji with 2 |
| Feed.ParseSort | server.js:133 | only the exact query value "likes" selects the likes sort of :248; a missing or empty value, and any other value, selects recency |
| Feed.OrderPosts | server.js:248-262 | the result lists every post exactly once, larger sort key first (like-row count or timestamp), ties by smaller id |
| Feed.OrderedUnique | server.js:254 | two lists in feed order over the same posts are equal, so the feed order is fully determined |
| Feed.OrderedLength | server.js:249-253 | the joined and grouped feed has one entry per post |
| Feed.LikesFeedOrder | server.js:249-256 | with the likes sort every post appears, including posts without likes, and like counts never increase down the list |
| Feed.RecencyFeedOrder | server.js:258-262 | with the default sort timestamps never increase down the list |
| Feed.TotalPages | server.js:142 | the page count is the least n with n * 9 at least the number of posts |
| Feed.Offset | server.js:244 | the offset skips (page - 1) * 9 rows for pages from 1 on, always a whole number of pages; below page 1 the negative offset counts as zero, as SQLite reads a negative OFFSET |
| Feed.Window | server.js:244-245 | `LIMIT 9 OFFSET skip` returns min(9, rows left after the offset) rows, none when the offset is at or past the end, and the i-th returned row is row offset + i of the ordered result |
| Feed.WindowPaging | server.js:244-245 | a page has at most nine entries, starts at offset (page - 1) * 9, is full before the last page, is non-empty up to the last page and empty past it |
| Feed.GetPosts | server.js:242-276 | the items are the requested page of the unique feed order; each carries its post row, the like-row count only under the likes sort, and whether the viewer liked it only when there is a viewer |
| Feed.Home | server.js:131-151 | page 0 becomes page 1; the page count is the ceiling of posts over nine; a page past the count is empty and a page within it is not; the items are that page of the feed |
| Accounts.DeletePost | server.js:183-197 | a missing post gives 404 and no change; the post row, and nothing else, is deleted exactly when the session user exists and the author name equals that user's name up to case; any other request on an existing post gets no response and changes nothing |
| Accounts.DeletePostKeepsCounters | server.js:191 | post deletion keeps every remaining counter equal to its like rows, and leaves all like and reaction rows in place |
| Accounts.RemoveLikes | server.js:381-384 | unliking a set of rows through the toggle succeeds exactly when every row points at an existing post, and then removes those rows and lowers each post's counter by its number of removed rows |
| Accounts.RemoveReactions | server.js:387-390 | toggling each reaction row of a set removes exactly those rows |
| Accounts.StripPosts | server.js:393-409 | each listed post is removed with every like and reaction on it |
| Accounts.DeleteAccount | server.js:375-428 | the cascade either commits or fails; it commits exactly when each of the user's likes points at an existing post, and then the state is the declarative cascade; on failure the rollback leaves the database unchanged |
| Accounts.CascadeSteps | server.js:378-414 | the like, reaction and post steps in sequence, followed by the two deletions, produce the declarative cascade |
| Accounts.CascadeRemovesAccount | server.js:378-414 | after the cascade the user row, the user's likes and reactions, the exactly-authored posts with all rows on them and the post with the user's id are gone; every other post, like and reaction remains |
| Accounts.CascadeKeepsCounters | server.js:380-413 | the cascade keeps every surviving counter equal to its like rows |
| Accounts.ConsistentCanCascade | server.js:381-384 | when every like row points at a post, account deletion cannot fail |
| Accounts.AlreadyDeletedIsNoOp | server.js:375-414 | deleting an account with no rows left, and no post carrying its id, changes nothing |
| Accounts.StrayPostDeletion | server.js:410 | a consistent database where the cascade of user 5 removes post 5 by another author and leaves that author's like dangling |
| Accounts.IntendedCascadeKeepsConsistency | server.js:393-413 | without the stray deletion, the cascade keeps every post the user did not author and keeps the database consistent |
| Accounts.DanglingLikeBlocksAccountDeletion | server.js:191 | after the owner deletes a liked post, the liker's account deletion can no longer succeed |
| Accounts.DeletePostCascadingKeepsConsistency | server.js:183-197 | deleting a post together with its likes and reactions gives the same reply and keeps the database consistent, so every account stays deletable |
| Text.Lower | server.js:600 | folding keeps the length, leaves no ASCII capital, lowers each ASCII capital to its small letter and keeps every other character |
| Text.LowerIdempotent | server.js:600 | folding a folded name changes nothing, so `LOWER(a) = LOWER(b)` compares canonical forms |
| Text.BlankIffTrimEmpty | server.js:347 | the blank test holds exactly when JavaScript's `trim` (leading, then trailing, whitespace removed) leaves the empty string |
| Identity.FindUserByName | server.js:596-606 | no user when no name matches up to case; otherwise the smallest id among the users whose name matches up to case |
| Identity.FindUserByHash | server.js:516 | no user when no row holds the hash; otherwise the smallest id holding it |
| Identity.LoginUser | server.js:578-585 | login succeeds with a user whose name matches up to case, and fails with 'User not found' exactly when the lookup finds none |
| Identity.GoogleCallback | server.js:508-533 | an unknown hash goes to registration, and only an unknown one; a known hash never fails the login |
| Identity.CallbackFindsOwner | server.js:516-526 | while names are unique up to case, a known hash logs in as the user holding that hash |
| Identity.RegisterUser | server.js:588-593 | registration is refused exactly when some user's name matches up to case, and then nothing changes; otherwise exactly the new row is added, and with an unused hash the reply is the new user |
| Identity.RegisterThenLogin | server.js:588-593 | after registering with an unused hash, login by the new name and the Google callback with that hash both reach the new user |
| Identity.RegisterKeepsNamesUnique | server.js:588-600 | registration keeps names unique up to case |
| Identity.ChangeUsername | server.js:344-373 | the rename succeeds exactly when the name is not blank, the user row exists and no user holds the name exactly; then only that user's name changes; a blank name, the same name, a name another user holds exactly ('Username already taken') and a missing user each give their own error and no change |
| Identity.RenameCaseOnly | server.js:355-360 | renaming "Bob" to "bob" succeeds |
| Identity.RenameHijacksLogin | server.js:360 | renaming to another user's name in different case succeeds, breaks case-insensitive uniqueness and sends the renamer's Google login to the other, older account |
| Identity.ChangeUsernameFoldedKeepsNamesUnique | server.js:359-363 | with the taken-name check folded to lower case, a rename keeps names unique up to case |

## Left out

- Passport, the OAuth exchange with Google, sessions, templates, the avatar
  route, static files and server start-up are not modelled. The session is
  an optional user id parameter.
- The SHA-256 of the Google id is an opaque string parameter. It is not
  computed.
- Timestamps (`new Date().toISOString()`) are integer parameters. ISO
  strings of one format sort in the order of the instants they denote. The
  reaction row's timestamp is not kept, because nothing reads it.
- Ids assigned by SQLite are parameters (`newId`), and the caller keeps
  them unused.
- Tables are sets, so duplicate rows cannot exist in the model. This is an
  assumption: the schema is not part of this model, so whether it forbids a
  second identical like or reaction row is unknown. It hides one behaviour.
  With duplicate rows, the DELETE at server.js:306 (or :318) removes every
  matching row while the like counter drops by only one.
- Row order is not modelled. The model fixes the order where the code does
  not:
  - a query's "first row" is the one with the smallest id;
  - the SQL `ORDER BY` leaves ties open, and the model breaks them by the
    smaller post id;
  - the loops of the cascade take rows in any order.
- Requests run one at a time, each atomically. Interleavings of concurrent
  requests are not modelled. The delete-post `db.run` is not awaited, and it
  is taken to finish before the next request.
- HTTP status codes, JSON shapes and error message texts are reduced to the
  `Outcome`, `LikeReply`, `Login` and `Registration` values.
- Missing request-body fields (`undefined` names, emojis and ids) and the
  `NaN` of `parseInt` are not modelled. Inputs are present strings and
  integers.
- Ids are natural numbers, because SQLite assigns row ids from 1. A
  negative id from `parseInt(req.params.id)` (server.js:165, :184, :200) is
  not modelled. Such an id names no post, and it would behave like any
  other missing post id: the like toggle inserts a dangling row.
- `isAuthenticated` (server.js:569-575) is not modelled. It tests only
  that the session id is truthy, so the session's user row may be gone.
  The like and react routes then throw at `currentUser.id` (server.js:169,
  :205) inside their `try`. They reply with an error and write nothing.
  `Engagement.ToggleLike` and `Engagement.ToggleReaction` model only the
  functions at server.js:295 and :313, which accept any user id. Those
  route-level refusals are not modelled.
  `Feed.CurrentUser` does model the `if (userId)` test of server.js:236:
  a session id of 0 counts as no session.
- The `username` column is assumed to use SQLite's default BINARY
  collation, because the schema is not part of this model. Under that
  collation `WHERE username = ?` (server.js:360) and the subquery at :393
  compare exactly. A `COLLATE NOCASE` column would make both compare up to
  ASCII case. The rename would then refuse "Bob" to "bob" as taken, and the
  cascade would also take posts whose author differs only in case.
- Adding a post (`/posts`, `addPost`) is a plain insert and is not part of
  this model.
- Integer width is not modelled. Counters and ids are unbounded, and no
  wrap-around of SQLite's 64-bit integers is possible at the sizes involved.
- Text.Lower: folds ASCII letters only. SQLite's `LOWER` does the same, but
  JavaScript's `toLowerCase` in post deletion also folds non-ASCII letters.
- Accounts.DeletePost: compares names with ASCII folding only. Two names
  that differ only in the case of non-ASCII letters count as different here,
  although the route treats them as equal.
- Accounts.DeleteAccount: a failure of `session.destroy` after the commit
  (a 500 reply over a committed deletion) is not modelled. A request
  without a session is not modelled either.
- Identity.RegisterUser: the failure path of `addUser` is not modelled. In
  that path the insert throws, the error is logged and `undefined` is
  returned. The insert is assumed to succeed.
- Identity.FindUserByName: the `catch` around a database error is not
  modelled, because the model's queries do not fail.
- Identity.ChangeUsername: the session's cached username (`req.session.passport`)
  is not modelled. Only the users table changes.

## Findings

| source | as written | input that shows it | evidently intended | confidence | as-written member | corrected member |
|---|---|---|---|---|---|---|
| server.js:410 | the cascade runs `DELETE FROM posts WHERE id = userId`, which deletes the post whose id happens to equal the user id | user 5 "dave" and user 7 "erin"; post 5 by erin, liked by erin; dave deletes the account; post 5 disappears and erin's like row dangles | delete only the user's own posts (the user row itself goes at :413) | high; not executed | Accounts.StrayPostDeletion | Accounts.IntendedCascadeKeepsConsistency |
| server.js:360 | the taken-name check of a rename compares exactly, while registration and login compare up to case (:600) | user 1 "alice", user 2 "bob"; bob renames to "Alice"; bob's Google login then resolves to user 1 | refuse a name that any user holds up to case, as registration does | medium, because the login target assumes SQLite returns the lower id first, and the exact comparison at :360 assumes the default BINARY collation of `username`; not executed | Identity.RenameHijacksLogin | Identity.ChangeUsernameFoldedKeepsNamesUnique |
| server.js:191 | post deletion removes only the post row and leaves its like rows | ann (1) likes bob's post 10; bob deletes post 10; every later account deletion by ann fails and rolls back | delete the post's likes and reactions with it | high; not executed | Accounts.DanglingLikeBlocksAccountDeletion | Accounts.DeletePostCascadingKeepsConsistency |

=== FILE: accounts.dfy ===
/**
  Post deletion by its owner and the account-deletion cascade of
  `/deleteAccount`, which runs the like and reaction toggles inside one
  transaction and rolls everything back when any step throws.
 */
module Accounts {
  import opened Store
  import opened Text
  import opened Engagement

  /** The delete-post route: 404 for a missing post; the owner, compared
      case-insensitively, deletes the post row and nothing else; a
      non-owner gets no response; a session whose user row is gone makes
      the handler throw, also without a response. */
  function DeletePost(db: Db, postId: PostId, uid: UserId): (r: (Outcome, Db))
    ensures postId !in db.posts ==> r == (NotFound, db)
    ensures r.0 == Ok <==>
      postId in db.posts && uid in db.users && Lower(db.posts[postId].author) == Lower(db.users[uid].username)
    ensures r.0 == Ok ==> r.1 == db.(posts := db.posts - {postId})
    ensures r.0 != Ok ==> r.1 == db
    ensures postId in db.posts && r.0 != Ok ==> r.0 == NoResponse
  {
    if postId !in db.posts then (NotFound, db)
    else if uid !in db.users then (NoResponse, db)
    else if Lower(db.posts[postId].author) == Lower(db.users[uid].username) then
      (Ok, db.(posts := db.posts - {postId}))
    else (NoResponse, db)
  }

  /** Deleting a post keeps every remaining counter right, but its like
      rows stay behind. */
  lemma DeletePostKeepsCounters(db: Db, postId: PostId, uid: UserId)
    requires CountersMatch(db)
    ensures CountersMatch(DeletePost(db, postId, uid).1)
    ensures DeletePost(db, postId, uid).1.likes == db.likes
    ensures DeletePost(db, postId, uid).1.reactions == db.reactions
  {
  }

  /** Posts whose author is exactly the user's name: the subquery
      `username = (SELECT username FROM users WHERE id = ?)` is
      case-sensitive and matches nothing when the user row is gone. */
  function Authored(db: Db, uid: UserId): (ps: set<PostId>)
    ensures forall p :: p in ps <==>
      uid in db.users && p in db.posts && db.posts[p].author == db.users[uid].username
  {
    if uid in db.users then set p | p in db.posts && db.posts[p].author == db.users[uid].username
    else {}
  }

  /** The cascade can only throw when the like toggle reads back a post row
      that is missing, which happens for a like of the user's on such a post. */
  predicate CanCascade(db: Db, uid: UserId)
  {
    forall l :: l in db.likes && l.user == uid ==> l.post in db.posts
  }

  /** The state a successful cascade commits: the user's likes and
      reactions, the posts authored under the user's exact name with every
      like and reaction on them, the post whose id equals the user id, and
      the user row are gone; every other post the user liked has its
      counter lowered by one. */
  function Cascaded(db: Db, uid: UserId): Db
  {
    var gone := Authored(db, uid);
    Db(
      db.users - {uid},
      map p | p in db.posts && p !in gone && p != uid ::
        db.posts[p].(likes := db.posts[p].likes - (if Like(uid, p) in db.likes then 1 else 0)),
      set l | l in db.likes && l.user != uid && l.post !in gone,
      set r | r in db.reactions && r.user != uid && r.post !in gone)
  }

  /** Every counter lowered by the number of rows of `ls` on its post. */
  function Decremented(posts: map<PostId, Post>, ls: set<Like>): (m: map<PostId, Post>)
    ensures m.Keys == posts.Keys
  {
    map p | p in posts :: posts[p].(likes := posts[p].likes - LikesOn(ls, p))
  }

  lemma DecrementStep(posts: map<PostId, Post>, done: set<Like>, l: Like)
    requires l !in done && l.post in posts
    ensures Decremented(posts, done + {l}) ==
      Decremented(posts, done)[l.post := Decremented(posts, done)[l.post].(likes := Decremented(posts, done)[l.post].likes - 1)]
  {
    forall p | p in posts
      ensures LikesOn(done + {l}, p) == LikesOn(done, p) + (if l.post == p then 1 else 0)
    {
      LikesOnInsert(done, l, p);
    }
  }

  /** Unlike each row of `ls` through the like toggle, in any order. It
      fails exactly when some row points at a missing post. */
  method RemoveLikes(db: Db, ls: set<Like>) returns (ok: bool, db': Db)
    requires ls <= db.likes
    ensures ok <==> forall l :: l in ls ==> l.post in db.posts
    ensures ok ==> db' == db.(likes := db.likes - ls, posts := Decremented(db.posts, ls))
  {
    var rest := ls;
    ghost var done: set<Like> := {};
    db' := db;
    assert forall p :: LikesFor(done, p) == {};
    assert Decremented(db.posts, done) == db.posts;
    while rest != {}
      invariant rest <= ls && done == ls - rest
      invariant forall l :: l in done ==> l.post in db.posts
      invariant db' == db.(likes := db.likes - done, posts := Decremented(db.posts, done))
      decreases rest
    {
      var l :| l in rest;
      assert l in db'.likes;
      var step := ToggleLike(db', l.post, l.user);
      if step.0 == PostMissing {
        return false, step.1;
      }
      DecrementStep(db.posts, done, l);
      assert step.1.likes == db.likes - (done + {l});
      db' := step.1;
      done := done + {l};
      rest := rest - {l};
    }
    assert done == ls;
    ok := true;
  }

  /** Remove each reaction row of `rs` through the reaction toggle. */
  method RemoveReactions(db: Db, rs: set<Reaction>) returns (db': Db)
    requires rs <= db.reactions
    ensures db' == db.(reactions := db.reactions - rs)
  {
    var rest := rs;
    db' := db;
    while rest != {}
      invariant rest <= rs
      invariant db' == db.(reactions := db.reactions - (rs - rest))
      decreases rest
    {
      var r :| r in rest;
      var _, _, next := ToggleReaction(db', r.post, r.user, r.emoji);
      db' := next;
      rest := rest - {r};
    }
  }

  function ReactionsBy(rs: set<Reaction>, u: UserId): (xs: set<Reaction>)
    ensures forall r :: r in xs <==> r in rs && r.user == u
  {
    set r | r in rs && r.user == u
  }

  function ReactionsOn(rs: set<Reaction>, p: PostId): (xs: set<Reaction>)
    ensures forall r :: r in xs <==> r in rs && r.post == p
  {
    set r | r in rs && r.post == p
  }

  /** The posts of `ps` deleted together with every like and reaction on them. */
  function Stripped(db: Db, ps: set<PostId>): Db
  {
    db.(posts := db.posts - ps,
        likes := (set l | l in db.likes && l.post !in ps),
        reactions := (set r | r in db.reactions && r.post !in ps))
  }

  /** The user's like rows: exactly one on `p` if the user liked it. */
  lemma LikesOnMine(likes: set<Like>, uid: UserId, p: PostId)
    ensures LikesOn(LikesBy(likes, uid), p) == if Like(uid, p) in likes then 1 else 0
  {
    if Like(uid, p) in likes {
      assert LikesFor(LikesBy(likes, uid), p) == {Like(uid, p)};
    } else {
      assert LikesFor(LikesBy(likes, uid), p) == {};
    }
  }

  /** Lowering counters by like rows on `p` alone, then deleting `p`,
      leaves every other post as it was. */
  lemma DecrementedThenDeleted(posts: map<PostId, Post>, ls: set<Like>, p: PostId)
    requires forall l :: l in ls ==> l.post == p
    ensures Decremented(posts, ls) - {p} == posts - {p}
  {
    forall q | q in posts && q != p
      ensures LikesOn(ls, q) == 0
    {
      assert LikesFor(ls, q) == {};
    }
  }

  /** Stripping one more post removes it with its likes and reactions. */
  lemma StripStep(db: Db, done: set<PostId>, p: PostId)
    ensures var s := Stripped(db, done);
      Stripped(db, done + {p}) ==
        s.(posts := s.posts - {p},
           likes := s.likes - LikesFor(s.likes, p),
           reactions := s.reactions - ReactionsOn(s.reactions, p))
  {
  }

  /** For each post of `ps`: remove its reactions and its likes through the
      toggles, then delete the post row. */
  method StripPosts(db: Db, ps: set<PostId>) returns (db': Db)
    requires ps <= db.posts.Keys
    ensures db' == Stripped(db, ps)
  {
    var rest := ps;
    db' := db;
    assert Stripped(db, {}) == db;
    while rest != {}
      invariant rest <= ps
      invariant db' == Stripped(db, ps - rest)
      decreases rest
    {
      var p :| p in rest;
      StripStep(db, ps - rest, p);
      var cleared := RemoveReactions(db', ReactionsOn(db'.reactions, p));
      var ok, unliked := RemoveLikes(cleared, LikesFor(cleared.likes, p));
      assert ok;
      DecrementedThenDeleted(cleared.posts, LikesFor(cleared.likes, p), p);
      db' := unliked.(posts := unliked.posts - {p});
      assert ps - (rest - {p}) == (ps - rest) + {p};
      rest := rest - {p};
    }
  }

  /** `/deleteAccount`: on success the committed state is `Cascaded`; on
      any error the transaction rolls back and the state is unchanged. The
      rows each query returns are taken in any order. */
  method DeleteAccount(db: Db, uid: UserId) returns (outcome: Outcome, db': Db)
    ensures outcome == Ok || outcome == Failed
    ensures outcome == Ok <==> CanCascade(db, uid)
    ensures outcome == Ok ==> db' == Cascaded(db, uid)
    ensures outcome == Failed ==> db' == db
  {
    // unlike every post the user liked
    var ok, s1 := RemoveLikes(db, LikesBy(db.likes, uid));
    if !ok {
      // ROLLBACK
      return Failed, db;
    }
    // remove every reaction the user made
    var s2 := RemoveReactions(s1, ReactionsBy(s1.reactions, uid));
    // strip and delete every post authored under the user's exact name
    var s3 := StripPosts(s2, Authored(s2, uid));
    // `DELETE FROM posts WHERE id = userId`, then the user row; COMMIT
    CascadeSteps(db, uid, s1, s2);
    db' := s3.(posts := s3.posts - {uid}, users := s3.users - {uid});
    outcome := Ok;
  }

  /** The steps of `DeleteAccount`, taken as whole-set updates, commit `Cascaded`. */
  lemma CascadeSteps(db: Db, uid: UserId, s1: Db, s2: Db)
    requires s1 == db.(likes := db.likes - LikesBy(db.likes, uid), posts := Decremented(db.posts, LikesBy(db.likes, uid)))
    requires s2 == s1.(reactions := s1.reactions - ReactionsBy(s1.reactions, uid))
    ensures Authored(s2, uid) == Authored(db, uid)
    ensures var s3 := Stripped(s2, Authored(s2, uid));
      s3.(posts := s3.posts - {uid}, users := s3.users - {uid}) == Cascaded(db, uid)
  {
    var s3 := Stripped(s2, Authored(s2, uid));
    var c := Cascaded(db, uid);
    forall p | p in db.posts
      ensures s2.posts[p].likes == db.posts[p].likes - (if Like(uid, p) in db.likes then 1 else 0)
    {
      LikesOnMine(db.likes, uid, p);
    }
    assert Authored(s2, uid) == Authored(db, uid);
    assert s3.likes == c.likes;
    assert s3.reactions == c.reactions;
    assert s3.posts - {uid} == c.posts;
  }

  /** After a successful cascade no like or reaction by the user remains,
      none on the posts authored under the user's exact name, none of those
      posts, not the post whose id is the user id, and not the user row;
      every other like and reaction row is kept. */
  lemma CascadeRemovesAccount(db: Db, uid: UserId)
    ensures var c := Cascaded(db, uid);
      && c.users == db.users - {uid}
      && uid !in c.posts
      && (forall l :: l in c.likes <==> l in db.likes && l.user != uid && l.post !in Authored(db, uid))
      && (forall r :: r in c.reactions <==> r in db.reactions && r.user != uid && r.post !in Authored(db, uid))
      && (uid in db.users ==> forall p :: p in c.posts ==> c.posts[p].author != db.users[uid].username)
      && (forall p :: p in db.posts && p !in Authored(db, uid) && p != uid ==> p in c.posts)
  {
  }

  /** A cascade keeps every surviving post's counter equal to its like rows. */
  lemma CascadeKeepsCounters(db: Db, uid: UserId)
    requires CountersMatch(db)
    ensures CountersMatch(Cascaded(db, uid))
  {
    var c := Cascaded(db, uid);
    forall p | p in c.posts
      ensures c.posts[p].likes == LikesOn(c.likes, p)
    {
      assert LikesFor(c.likes, p) == LikesFor(db.likes, p) - {Like(uid, p)};
      if Like(uid, p) in db.likes {
        assert LikesFor(db.likes, p) == LikesFor(c.likes, p) + {Like(uid, p)};
      }
    }
  }

  /** With every like row pointing at a post, the cascade cannot throw. */
  lemma ConsistentCanCascade(db: Db, uid: UserId)
    requires LikesReferencePosts(db)
    ensures CanCascade(db, uid)
  {
  }

  /** Deleting an account whose rows are all gone already changes nothing,
      provided no post has the user's id as its own id. */
  lemma AlreadyDeletedIsNoOp(db: Db, uid: UserId)
    requires uid !in db.users && uid !in db.posts
    requires forall l :: l in db.likes ==> l.user != uid
    requires forall r :: r in db.reactions ==> r.user != uid
    ensures CanCascade(db, uid)
    ensures Cascaded(db, uid) == db
  {
  }

  /** As written, the cascade also deletes the post whose id equals the
      user's id: user 5 ("dave") deleting the account removes post 5, which
      "erin" wrote, and leaves erin's own like on it dangling. */
  lemma StrayPostDeletion()
    ensures var db := Db(
        map[5 := User("dave", "h5", 0), 7 := User("erin", "h7", 0)],
        map[5 := Post("t", "c", "erin", 0, 1)],
        {Like(7, 5)},
        {});
      && Consistent(db)
      && CanCascade(db, 5)
      && 5 !in Cascaded(db, 5).posts
      && !LikesReferencePosts(Cascaded(db, 5))
  {
    var db := Db(
        map[5 := User("dave", "h5", 0), 7 := User("erin", "h7", 0)],
        map[5 := Post("t", "c", "erin", 0, 1)],
        {Like(7, 5)},
        {});
    assert LikesFor(db.likes, 5) == {Like(7, 5)};
    assert Like(7, 5) in Cascaded(db, 5).likes;
  }

  /** The cascade without the stray `DELETE FROM posts WHERE id = userId`. */
  function IntendedCascade(db: Db, uid: UserId): Db
  {
    var gone := Authored(db, uid);
    Db(
      db.users - {uid},
      map p | p in db.posts && p !in gone ::
        db.posts[p].(likes := db.posts[p].likes - (if Like(uid, p) in db.likes then 1 else 0)),
      set l | l in db.likes && l.user != uid && l.post !in gone,
      set r | r in db.reactions && r.user != uid && r.post !in gone)
  }

  /** The intended cascade keeps every post the user did not author and
      keeps the database consistent. */
  lemma IntendedCascadeKeepsConsistency(db: Db, uid: UserId)
    requires Consistent(db)
    ensures forall p :: p in db.posts && p !in Authored(db, uid) ==> p in IntendedCascade(db, uid).posts
    ensures Consistent(IntendedCascade(db, uid))
  {
    var c := IntendedCascade(db, uid);
    forall p | p in c.posts
      ensures c.posts[p].likes == LikesOn(c.likes, p)
    {
      assert LikesFor(c.likes, p) == LikesFor(db.likes, p) - {Like(uid, p)};
      if Like(uid, p) in db.likes {
        assert LikesFor(db.likes, p) == LikesFor(c.likes, p) + {Like(uid, p)};
      }
    }
  }

  /** As written, deleting a liked post leaves its like row behind, and the
      liker's account can then never be deleted: ann (1) likes bob's post 10,
      bob deletes it, and ann's cascade throws on the missing post. */
  lemma DanglingLikeBlocksAccountDeletion()
    ensures var db := Db(
        map[1 := User("ann", "h1", 0), 2 := User("bob", "h2", 0)],
        map[10 := Post("t", "c", "bob", 0, 1)],
        {Like(1, 10)},
        {});
      && Consistent(db)
      && DeletePost(db, 10, 2).0 == Ok
      && !CanCascade(DeletePost(db, 10, 2).1, 1)
  {
    var db := Db(
        map[1 := User("ann", "h1", 0), 2 := User("bob", "h2", 0)],
        map[10 := Post("t", "c", "bob", 0, 1)],
        {Like(1, 10)},
        {});
    assert LikesFor(db.likes, 10) == {Like(1, 10)};
    assert Like(1, 10) in DeletePost(db, 10, 2).1.likes;
  }

  /** Post deletion that also removes the likes and reactions on the post. */
  function DeletePostCascading(db: Db, postId: PostId, uid: UserId): (r: (Outcome, Db))
  {
    var (outcome, db') := DeletePost(db, postId, uid);
    if outcome == Ok then (Ok, Stripped(db, {postId})) else (outcome, db')
  }

  /** The cascading post deletion keeps the database consistent, so every
      account stays deletable. */
  lemma DeletePostCascadingKeepsConsistency(db: Db, postId: PostId, uid: UserId)
    requires Consistent(db)
    ensures DeletePostCascading(db, postId, uid).0 == DeletePost(db, postId, uid).0
    ensures Consistent(DeletePostCascading(db, postId, uid).1)
    ensures forall u :: CanCascade(DeletePostCascading(db, postId, uid).1, u)
  {
    var r := DeletePostCascading(db, postId, uid).1;
    forall p | p in r.posts
      ensures r.posts[p].likes == LikesOn(r.likes, p)
    {
      assert LikesFor(r.likes, p) == LikesFor(db.likes, p);
    }
  }
}

=== FILE: engagement.dfy ===
/**
  The engagement ledger: the like toggle (`updatePostLikes`) and the
  reaction toggle (`updatePostReactions`) of server.js, each one atomic step.
 */
module Engagement {
  import opened Store

  /** What `updatePostLikes` returns: `{action, likes}` read back from the
      post row, or the TypeError raised when that row is missing. */
  datatype LikeReply = Liked(count: int) | Unliked(count: int) | PostMissing

  /**
    Flip the (user, post) like row and move the post's counter by one.
    The like row is written before the post row is read back, so on a
    missing post the row change stays and the call still fails.
   */
  function ToggleLike(db: Db, post: PostId, user: UserId): (r: (LikeReply, Db))
    ensures r.1.users == db.users && r.1.reactions == db.reactions
    ensures Like(user, post) !in db.likes ==> r.1.likes == db.likes + {Like(user, post)}
    ensures Like(user, post) in db.likes ==> r.1.likes == db.likes - {Like(user, post)}
    ensures post !in db.posts ==> r.0 == PostMissing && r.1.posts == db.posts
    ensures post in db.posts ==>
      r.0 == if Like(user, post) in db.likes then Unliked(db.posts[post].likes - 1) else Liked(db.posts[post].likes + 1)
    ensures post in db.posts ==> r.1.posts == db.posts[post := db.posts[post].(likes := r.0.count)]
  {
    var l := Like(user, post);
    var liking := l !in db.likes;
    var likes' := if liking then db.likes + {l} else db.likes - {l};
    if post !in db.posts then
      (PostMissing, db.(likes := likes'))
    else
      var n := db.posts[post].likes + (if liking then 1 else -1);
      var db' := db.(likes := likes', posts := db.posts[post := db.posts[post].(likes := n)]);
      (if liking then Liked(n) else Unliked(n), db')
  }

  /** The like toggle keeps every existing post's counter equal to its
      number of like rows, and on an existing post it reports that number;
      on an existing post it also keeps every like row pointing at a post. */
  lemma ToggleLikeKeepsCounters(db: Db, post: PostId, user: UserId)
    requires CountersMatch(db)
    ensures CountersMatch(ToggleLike(db, post, user).1)
    ensures post in db.posts ==> ToggleLike(db, post, user).0.count == LikesOn(ToggleLike(db, post, user).1.likes, post)
    ensures LikesReferencePosts(db) && post in db.posts ==> LikesReferencePosts(ToggleLike(db, post, user).1)
  {
    var l := Like(user, post);
    var db' := ToggleLike(db, post, user).1;
    forall p | p in db'.posts
      ensures db'.posts[p].likes == LikesOn(db'.likes, p)
    {
      if l in db.likes {
        LikesOnRemove(db.likes, l, p);
      } else {
        LikesOnInsert(db.likes, l, p);
      }
    }
  }

  /** Toggling the same pair twice restores the likes relation and every
      counter, whether or not the post exists. */
  lemma ToggleLikeTwice(db: Db, post: PostId, user: UserId)
    ensures ToggleLike(ToggleLike(db, post, user).1, post, user).1 == db
  {
  }

  /** User 1 likes post 10 (no likes yet) and gets `liked, 1`; liking it
      again gives `unliked, 0`. */
  lemma LikeTwiceScenario(post: Post)
    requires post.likes == 0
    ensures var db := Db(map[1 := User("ann", "h1", 0)], map[10 := post], {}, {});
      && ToggleLike(db, 10, 1).0 == Liked(1)
      && ToggleLike(ToggleLike(db, 10, 1).1, 10, 1).0 == Unliked(0)
  {
  }

  /** Liking a post id that has no row inserts a like row for it and then
      fails: the row now points at no post. */
  lemma LikeOnMissingPostDangles(db: Db, post: PostId, user: UserId)
    requires post !in db.posts && Like(user, post) !in db.likes
    ensures ToggleLike(db, post, user).0 == PostMissing
    ensures Like(user, post) in ToggleLike(db, post, user).1.likes
    ensures !LikesReferencePosts(ToggleLike(db, post, user).1)
  {
  }

  datatype ReactAction = Added | Removed

  /** The reaction rows on `post` carrying `emoji`. */
  function ReactionsWith(rs: set<Reaction>, post: PostId, emoji: string): set<Reaction>
  {
    set r | r in rs && r.post == post && r.emoji == emoji
  }

  /** Insert the row if absent, delete it if present. */
  function FlipReaction(rs: set<Reaction>, r: Reaction): (rs': set<Reaction>)
    ensures r in rs' <==> r !in rs
    ensures forall x :: x != r ==> (x in rs' <==> x in rs)
  {
    if r in rs then rs - {r} else rs + {r}
  }

  /** `counts` holds, for `post` only, every emoji with its number of rows
      in `rs`, and no emoji without rows. */
  ghost predicate Tallies(counts: map<string, nat>, rs: set<Reaction>, post: PostId)
  {
    && (forall e :: e in counts <==> |ReactionsWith(rs, post, e)| > 0)
    && (forall e :: e in counts ==> counts[e] == |ReactionsWith(rs, post, e)|)
  }

  /** One more row of `post` adds one to the count of its own emoji only. */
  lemma ReactionsWithInsert(done: set<Reaction>, r: Reaction, post: PostId, e: string)
    requires r.post == post && r !in done
    ensures |ReactionsWith(done + {r}, post, e)| == |ReactionsWith(done, post, e)| + (if e == r.emoji then 1 else 0)
  {
    if e == r.emoji {
      assert ReactionsWith(done + {r}, post, e) == ReactionsWith(done, post, e) + {r};
    } else {
      assert ReactionsWith(done + {r}, post, e) == ReactionsWith(done, post, e);
    }
  }

  /** Counting one more row of `post` adds one to its emoji's tally. */
  lemma TallyStep(counts: map<string, nat>, done: set<Reaction>, r: Reaction, post: PostId)
    requires Tallies(counts, done, post)
    requires r.post == post && r !in done
    ensures Tallies(counts[r.emoji := (if r.emoji in counts then counts[r.emoji] else 0) + 1], done + {r}, post)
  {
    var counts' := counts[r.emoji := (if r.emoji in counts then counts[r.emoji] else 0) + 1];
    forall e
      ensures e in counts' <==> |ReactionsWith(done + {r}, post, e)| > 0
      ensures e in counts' ==> counts'[e] == |ReactionsWith(done + {r}, post, e)|
    {
      ReactionsWithInsert(done, r, post, e);
    }
  }

  /** Reacting twice with the same emoji restores the reaction rows. */
  lemma FlipReactionTwice(rs: set<Reaction>, r: Reaction)
    ensures FlipReaction(FlipReaction(rs, r), r) == rs
  {
  }

  /** The per-emoji counts of one post's reactions, scanned row by row as
      `SELECT emoji, COUNT(*) ... WHERE post_id = ? GROUP BY emoji` does. */
  method CountByEmoji(rs: set<Reaction>, post: PostId) returns (counts: map<string, nat>)
    ensures Tallies(counts, rs, post)
  {
    var onPost := set r | r in rs && r.post == post;
    counts := map[];
    var rest := onPost;
    ghost var done: set<Reaction> := {};
    assert forall e :: ReactionsWith(done, post, e) == {};
    while rest != {}
      invariant rest <= onPost && done == onPost - rest
      invariant Tallies(counts, done, post)
      decreases rest
    {
      var r :| r in rest;
      TallyStep(counts, done, r, post);
      var n := if r.emoji in counts then counts[r.emoji] else 0;
      counts := counts[r.emoji := n + 1];
      done := done + {r};
      rest := rest - {r};
    }
    assert forall e :: ReactionsWith(done, post, e) == ReactionsWith(rs, post, e);
  }

  /**
    Flip the (post, user, emoji) reaction row, then report the emoji counts
    of that post alone. No post or user is checked for existence.
   */
  method ToggleReaction(db: Db, post: PostId, user: UserId, emoji: string)
    returns (action: ReactAction, counts: map<string, nat>, db': Db)
    ensures action == Added <==> Reaction(post, user, emoji) !in db.reactions
    ensures Reaction(post, user, emoji) in db'.reactions <==> action == Added
    ensures db' == db.(reactions := FlipReaction(db.reactions, Reaction(post, user, emoji)))
    ensures Tallies(counts, db'.reactions, post)
  {
    var r := Reaction(post, user, emoji);
    action := if r in db.reactions then Removed else Added;
    db' := db.(reactions := FlipReaction(db.reactions, r));
    counts := CountByEmoji(db'.reactions, post);
  }

  /** Users 1 and 2 each react "fire" to post 10, which has no reactions
      yet (other posts may have any): reactions elsewhere do not enter the
      tally; the second toggle adds its row and reports "fire" with count 2,
      and no other emoji. */
  method TwoReactionsScenario(db: Db) returns (action: ReactAction, counts: map<string, nat>)
    requires forall r :: r in db.reactions ==> r.post != 10
    ensures action == Added
    ensures counts == map["fire" := 2]
  {
    var _, _, db1 := ToggleReaction(db, 10, 1, "fire");
    var db2;
    action, counts, db2 := ToggleReaction(db1, 10, 2, "fire");
    assert ReactionsWith(db2.reactions, 10, "fire") == {Reaction(10, 1, "fire"), Reaction(10, 2, "fire")};
    forall e | e != "fire"
      ensures ReactionsWith(db2.reactions, 10, e) == {}
    {
    }
    assert counts.Keys == {"fire"};
  }
}

=== FILE: feed.dfy ===
/**
  The home feed: `getPosts` sorts all posts by like count or by recency,
  cuts a page of nine at offset (page - 1) * 9, and marks each post the
  logged-in viewer has liked; the home route adds the page count.
 */
module Feed {
  import opened Store

  datatype SortBy = ByLikes | ByRecency

  const PageSize: nat := 9

  /** `req.query.sort || 'recency'`, then `sort === 'likes'`: anything but
      "likes" sorts by recency. */
  function ParseSort(query: string): (sort: SortBy)
    ensures sort == ByLikes <==> query == "likes"
    ensures query == "" ==> sort == ByRecency
  {
    if query == "likes" then ByLikes else ByRecency
  }

  /** The value a post is ordered by, larger first: the number of its like
      rows (the LEFT JOIN count, not the stored counter) or its timestamp. */
  function SortKey(db: Db, sort: SortBy, p: PostId): int
  {
    match sort
    case ByLikes => LikesOn(db.likes, p)
    case ByRecency => if p in db.posts then db.posts[p].timestamp else 0
  }

  /** `a` comes before `b`: larger key first, ties by smaller id. */
  predicate Precedes(db: Db, sort: SortBy, a: PostId, b: PostId)
  {
    SortKey(db, sort, a) > SortKey(db, sort, b) || (SortKey(db, sort, a) == SortKey(db, sort, b) && a < b)
  }

  predicate Sorted(db: Db, sort: SortBy, s: seq<PostId>)
  {
    forall i, j :: 0 <= i < j < |s| ==> Precedes(db, sort, s[i], s[j])
  }

  /** `s` lists every post exactly once, in feed order. */
  ghost predicate Ordered(db: Db, sort: SortBy, s: seq<PostId>)
  {
    Sorted(db, sort, s) && forall p :: p in s <==> p in db.posts
  }

  /** Insert `x` into a sorted list at its place. */
  function Insert(db: Db, sort: SortBy, s: seq<PostId>, x: PostId): (r: seq<PostId>)
    requires Sorted(db, sort, s) && x !in s
    ensures Sorted(db, sort, r)
    ensures forall p :: p in r <==> p in s || p == x
    ensures |r| == |s| + 1
    decreases |s|
  {
    if |s| == 0 then [x]
    else if Precedes(db, sort, x, s[0]) then [x] + s
    else
      var tail := Insert(db, sort, s[1..], x);
      assert forall k :: 0 <= k < |tail| ==> tail[k] in s[1..] || tail[k] == x;
      [s[0]] + tail
  }

  /** Order all posts, inserting them one by one in whatever order the
      table yields them. */
  method OrderPosts(db: Db, sort: SortBy) returns (s: seq<PostId>)
    ensures Ordered(db, sort, s)
  {
    s := [];
    var rest := db.posts.Keys;
    while rest != {}
      invariant rest <= db.posts.Keys
      invariant Sorted(db, sort, s)
      invariant forall p :: p in s <==> p in db.posts && p !in rest
      decreases rest
    {
      var x :| x in rest;
      s := Insert(db, sort, s, x);
      rest := rest - {x};
    }
  }

  /** A list in feed order has no repeats: `Precedes` is irreflexive. */
  lemma SortedDistinct(db: Db, sort: SortBy, s: seq<PostId>)
    requires Sorted(db, sort, s)
    ensures forall i, j :: 0 <= i < j < |s| ==> s[i] != s[j]
  {
  }

  /** A list without repeats is as long as the set of its elements. */
  lemma {:induction false} DistinctCard<T>(s: seq<T>)
    requires forall i, j :: 0 <= i < j < |s| ==> s[i] != s[j]
    ensures |set x | x in s| == |s|
  {
    if |s| > 0 {
      DistinctCard(s[1..]);
      assert s[0] !in (set x | x in s[1..]);
      assert s == [s[0]] + s[1..];
      assert (set x | x in s) == (set x | x in s[1..]) + {s[0]};
    }
  }

  /** The ordered feed holds as many entries as there are posts. */
  lemma OrderedLength(db: Db, sort: SortBy, s: seq<PostId>)
    requires Ordered(db, sort, s)
    ensures |s| == |db.posts|
  {
    SortedDistinct(db, sort, s);
    DistinctCard(s);
    assert (set x: PostId | x in s) == db.posts.Keys;
    assert |db.posts.Keys| == |db.posts|;
  }

  /** Stated apart so that the base case of `OrderedUnique` names `t[0]`
      without indexing `t` in a branch its facts already rule out. */
  lemma HeadIsElement(t: seq<PostId>)
    ensures |t| > 0 ==> t[0] in t
  {
  }

  /** There is only one feed order: the tie-break makes it total. */
  lemma {:induction false} OrderedUnique(db: Db, sort: SortBy, s: seq<PostId>, t: seq<PostId>)
    requires Sorted(db, sort, s) && Sorted(db, sort, t)
    requires forall p :: p in s <==> p in t
    ensures s == t
    decreases |s|
  {
    if |s| == 0 {
      HeadIsElement(t);
    } else {
      assert s[0] in t;
      assert t != [];
      assert t[0] in s;
      assert s[0] == t[0];
      forall p
        ensures p in s[1..] <==> p in t[1..]
      {
        if p in s[1..] {
          var i :| 1 <= i < |s| && s[i] == p;
          assert Precedes(db, sort, s[0], s[i]);
          assert p in t;
        }
        if p in t[1..] {
          var j :| 1 <= j < |t| && t[j] == p;
          assert Precedes(db, sort, t[0], t[j]);
          assert p in s;
        }
      }
      OrderedUnique(db, sort, s[1..], t[1..]);
      assert s == [s[0]] + s[1..];
      assert t == [t[0]] + t[1..];
    }
  }

  /** With `sort=likes` every post appears, zero-like ones too, and like
      counts never increase down the list. */
  lemma LikesFeedOrder(db: Db, s: seq<PostId>)
    requires Ordered(db, ByLikes, s)
    ensures forall p :: p in db.posts && LikesOn(db.likes, p) == 0 ==> p in s
    ensures forall i, j :: 0 <= i < j < |s| ==> LikesOn(db.likes, s[i]) >= LikesOn(db.likes, s[j])
  {
  }

  /** The default sort never increases in timestamp down the list. */
  lemma RecencyFeedOrder(db: Db, s: seq<PostId>)
    requires Ordered(db, ByRecency, s)
    ensures forall i, j :: 0 <= i < j < |s| ==> db.posts[s[i]].timestamp >= db.posts[s[j]].timestamp
  {
  }

  /** `OFFSET (page - 1) * 9`; SQLite reads a negative offset as zero. */
  function Offset(page: int): (o: nat)
    ensures page >= 1 ==> o == (page - 1) * PageSize
    ensures page < 1 ==> o == 0
    ensures o % PageSize == 0
  {
    if page <= 1 then 0 else (page - 1) * PageSize
  }

  /** `LIMIT 9 OFFSET (page - 1) * 9` applied to the ordered list. */
  function Window<T>(s: seq<T>, page: int): (w: seq<T>)
    ensures |w| == if Offset(page) >= |s| then 0 else if |s| - Offset(page) < PageSize then |s| - Offset(page) else PageSize
    ensures forall i :: 0 <= i < |w| ==> w[i] == s[Offset(page) + i]
  {
    var lo := if Offset(page) < |s| then Offset(page) else |s|;
    var hi := if lo + PageSize < |s| then lo + PageSize else |s|;
    s[lo..hi]
  }

  /** `Math.ceil(count / 9)`. */
  function TotalPages(count: nat): (n: nat)
    ensures n * PageSize >= count
    ensures n == 0 || (n - 1) * PageSize < count
  {
    (count + PageSize - 1) / PageSize
  }

  /** A page holds at most nine posts, starts at its offset, is full before
      the last page, non-empty up to the last page and empty past it. */
  lemma WindowPaging<T>(s: seq<T>, page: int)
    ensures |Window(s, page)| <= PageSize
    ensures page >= 1 && Offset(page) < |s| ==> Window(s, page) == s[Offset(page)..Offset(page) + |Window(s, page)|]
    ensures 1 <= page < TotalPages(|s|) ==> |Window(s, page)| == PageSize
    ensures 1 <= page <= TotalPages(|s|) ==> |Window(s, page)| > 0
    ensures page > TotalPages(|s|) ==> Window(s, page) == []
  {
  }

  /** One feed entry: the post row, the computed `likesCount` column (only
      with `sort=likes`) and `likedByCurrentUser` (only with a viewer). */
  datatype FeedItem = FeedItem(id: PostId, post: Post, likesCount: Option<nat>, likedByCurrentUser: Option<bool>)

  /** `getCurrentUser`: the session's user, if that user row still exists;
      `if (userId)` treats an id of 0 as no session. */
  function CurrentUser(db: Db, session: Option<UserId>): Option<UserId>
  {
    if session.Some? && session.value != 0 && session.value in db.users then session else None
  }

  function Ids(items: seq<FeedItem>): (ids: seq<PostId>)
    ensures |ids| == |items| && forall i :: 0 <= i < |items| ==> ids[i] == items[i].id
  {
    seq(|items|, i requires 0 <= i < |items| => items[i].id)
  }

  /** `getPosts`: one page of the feed, annotated for the viewer. */
  method GetPosts(db: Db, session: Option<UserId>, sort: SortBy, page: int) returns (items: seq<FeedItem>)
    ensures |items| <= PageSize
    ensures exists s: seq<PostId> :: Ordered(db, sort, s) && Ids(items) == Window(s, page)
    ensures forall i :: 0 <= i < |items| ==> items[i].id in db.posts && items[i].post == db.posts[items[i].id]
    ensures forall i :: 0 <= i < |items| ==>
      items[i].likesCount == (if sort == ByLikes then Some(LikesOn(db.likes, items[i].id)) else None)
    ensures forall i :: 0 <= i < |items| ==>
      items[i].likedByCurrentUser == match CurrentUser(db, session)
        case Some(v) => Some(Like(v, items[i].id) in db.likes)
        case None => None
  {
    var ordered := OrderPosts(db, sort);
    var ids := Window(ordered, page);
    WindowPaging(ordered, page);
    assert forall i :: 0 <= i < |ids| ==> ids[i] in ordered;
    var viewer := CurrentUser(db, session);
    items := seq(|ids|, i requires 0 <= i < |ids| =>
      FeedItem(
        ids[i],
        db.posts[ids[i]],
        if sort == ByLikes then Some(LikesOn(db.likes, ids[i])) else None,
        if viewer.Some? then Some(Like(viewer.value, ids[i]) in db.likes) else None));
    assert Ids(items) == ids;
  }

  /** The home route: parse the query, fetch the page, count the pages.
      `parseInt(page) || 1` turns a zero page into page one. */
  method Home(db: Db, session: Option<UserId>, sortQuery: string, pageQuery: int)
    returns (items: seq<FeedItem>, totalPages: nat, currentPage: int)
    ensures currentPage == (if pageQuery == 0 then 1 else pageQuery)
    ensures totalPages * PageSize >= |db.posts| && (totalPages == 0 || (totalPages - 1) * PageSize < |db.posts|)
    ensures currentPage > totalPages ==> items == []
    ensures 1 <= currentPage <= totalPages ==> items != []
    ensures exists s: seq<PostId> :: Ordered(db, ParseSort(sortQuery), s) && Ids(items) == Window(s, currentPage)
  {
    currentPage := if pageQuery == 0 then 1 else pageQuery;
    items := GetPosts(db, session, ParseSort(sortQuery), currentPage);
    totalPages := TotalPages(|db.posts|);
    ghost var s: seq<PostId> :| Ordered(db, ParseSort(sortQuery), s) && Ids(items) == Window(s, currentPage);
    OrderedLength(db, ParseSort(sortQuery), s);
    WindowPaging(s, currentPage);
  }
}

=== FILE: identity.dfy ===
/**
  Usernames: lookup by name (`findUserByUsername`, case-insensitive),
  login after the Google callback (`loginUser`), registration
  (`registerUser` / `addUser`) and renaming (`/changeUsername`, whose
  checks are case-sensitive).
 */
module Identity {
  import opened Store
  import opened Text

  /** Ids of the users whose name equals `name` after ASCII folding. */
  function NameMatches(db: Db, name: string): (us: set<UserId>)
    ensures forall u :: u in us <==> u in db.users && Lower(db.users[u].username) == Lower(name)
  {
    set u | u in db.users && Lower(db.users[u].username) == Lower(name)
  }

  /** `findUserByUsername`: `WHERE LOWER(username) = LOWER(?)`, first row
      of the scan, that is the smallest id. */
  function FindUserByName(db: Db, name: string): (r: Option<UserId>)
    ensures r.None? <==> forall u :: u in db.users ==> Lower(db.users[u].username) != Lower(name)
    ensures r.Some? ==> r.value in db.users && Lower(db.users[r.value].username) == Lower(name)
    ensures r.Some? ==> forall u :: u in db.users && Lower(db.users[u].username) == Lower(name) ==> r.value <= u
  {
    var matches := NameMatches(db, name);
    if matches == {} then None else Some(MinId(matches))
  }

  /** Ids of the users holding the given Google id hash. */
  function HashMatches(db: Db, hash: string): (us: set<UserId>)
    ensures forall u :: u in us <==> u in db.users && db.users[u].googleHash == hash
  {
    set u | u in db.users && db.users[u].googleHash == hash
  }

  /** First user row holding the given Google id hash. */
  function FindUserByHash(db: Db, hash: string): (r: Option<UserId>)
    ensures r.None? <==> forall u :: u in db.users ==> db.users[u].googleHash != hash
    ensures r.Some? ==> r.value in db.users && db.users[r.value].googleHash == hash
    ensures r.Some? ==> forall u :: u in db.users && db.users[u].googleHash == hash ==> r.value <= u
  {
    var matches := HashMatches(db, hash);
    if matches == {} then None else Some(MinId(matches))
  }

  datatype Login = LoggedIn(id: UserId) | UserNotFound | NeedsRegistration

  /** `loginUser`: the user found by name, or the 'User not found' error. */
  function LoginUser(db: Db, name: string): (r: Login)
    ensures r != NeedsRegistration
    ensures r == UserNotFound <==> FindUserByName(db, name).None?
    ensures r.LoggedIn? ==> r.id in db.users && Lower(db.users[r.id].username) == Lower(name)
  {
    match FindUserByName(db, name)
    case None => UserNotFound
    case Some(u) => LoggedIn(u)
  }

  /** The Google callback once the hash is computed: an unknown hash goes to
      registration; a known one logs in by that user's name, looked up
      again case-insensitively. */
  function GoogleCallback(db: Db, hash: string): (r: Login)
    ensures r == NeedsRegistration <==> FindUserByHash(db, hash).None?
    ensures r != UserNotFound
  {
    match FindUserByHash(db, hash)
    case None => NeedsRegistration
    case Some(u) => LoginUser(db, db.users[u].username)
  }

  /** No two users share a name up to ASCII case. */
  predicate NamesUniqueFolded(db: Db)
  {
    forall u, v :: u in db.users && v in db.users && u != v ==>
      Lower(db.users[u].username) != Lower(db.users[v].username)
  }

  /** While names are unique up to case, the callback logs a known user in
      as that very user. */
  lemma CallbackFindsOwner(db: Db, hash: string)
    requires NamesUniqueFolded(db)
    requires FindUserByHash(db, hash).Some?
    ensures GoogleCallback(db, hash) == LoggedIn(FindUserByHash(db, hash).value)
    ensures db.users[GoogleCallback(db, hash).id].googleHash == hash
  {
  }

  datatype Registration = Registered(id: UserId) | UsernameExists

  /** `registerUser` then `addUser`: refuse a name any user holds up to
      case; otherwise insert the row under the id SQLite assigns (`newId`)
      and return the first user holding the hash. */
  function RegisterUser(db: Db, username: string, hash: string, since: int, newId: UserId): (r: (Registration, Db))
    requires newId !in db.users
    ensures r.0 == UsernameExists <==> exists u :: u in db.users && Lower(db.users[u].username) == Lower(username)
    ensures r.0 == UsernameExists ==> r.1 == db
    ensures r.0.Registered? ==> r.1 == db.(users := db.users[newId := User(username, hash, since)])
    ensures r.0.Registered? && (forall u :: u in db.users ==> db.users[u].googleHash != hash) ==> r.0.id == newId
  {
    if FindUserByName(db, username).Some? then (UsernameExists, db)
    else
      var db' := db.(users := db.users[newId := User(username, hash, since)]);
      (Registered(FindUserByHash(db', hash).value), db')
  }

  /** Registration keeps names unique up to case. */
  lemma RegisterKeepsNamesUnique(db: Db, username: string, hash: string, since: int, newId: UserId)
    requires newId !in db.users
    requires NamesUniqueFolded(db)
    ensures NamesUniqueFolded(RegisterUser(db, username, hash, since, newId).1)
  {
  }

  /** After a registration with an unused hash, both a login by the new
      name and the Google callback with that hash reach the new user. */
  lemma RegisterThenLogin(db: Db, username: string, hash: string, since: int, newId: UserId)
    requires newId !in db.users
    requires forall u :: u in db.users ==> db.users[u].googleHash != hash
    requires RegisterUser(db, username, hash, since, newId).0.Registered?
    ensures LoginUser(RegisterUser(db, username, hash, since, newId).1, username) == LoggedIn(newId)
    ensures GoogleCallback(RegisterUser(db, username, hash, since, newId).1, hash) == LoggedIn(newId)
  {
  }

  /** `/changeUsername` for the logged-in user `uid`: refuse a blank name, a
      name identical to the current one and a name some user holds
      exactly; a missing user row is a server error; otherwise only that
      user's name changes. */
  function ChangeUsername(db: Db, uid: UserId, newName: string): (r: (Outcome, Db))
    ensures r.0 == Ok <==>
      !IsBlank(newName) && uid in db.users && forall u :: u in db.users ==> db.users[u].username != newName
    ensures r.0 == Ok ==> r.1 == db.(users := db.users[uid := db.users[uid].(username := newName)])
    ensures r.0 != Ok ==> r.1 == db
    ensures IsBlank(newName) ==> r.0 == Rejected(EmptyName)
    ensures !IsBlank(newName) && uid in db.users && db.users[uid].username == newName ==> r.0 == Rejected(SameName)
    ensures !IsBlank(newName) && uid !in db.users ==> r.0 == Failed
    ensures !IsBlank(newName) && uid in db.users && db.users[uid].username != newName
      && (exists u :: u in db.users && db.users[u].username == newName)
      ==> r.0 == Rejected(NameTaken)
  {
    if IsBlank(newName) then (Rejected(EmptyName), db)
    else if uid !in db.users then (Failed, db)
    else if db.users[uid].username == newName then (Rejected(SameName), db)
    else if exists u :: u in db.users && db.users[u].username == newName then (Rejected(NameTaken), db)
    else (Ok, db.(users := db.users[uid := db.users[uid].(username := newName)]))
  }

  /** The checks are case-sensitive: "Bob" may rename to "bob". */
  lemma RenameCaseOnly()
    ensures ChangeUsername(Db(map[1 := User("Bob", "h1", 0)], map[], {}, {}), 1, "bob").0 == Ok
  {
    var db := Db(map[1 := User("Bob", "h1", 0)], map[], {}, {});
    assert db.users[1].username != "bob";
    assert !IsTrimmed('b');
  }

  /** As written, a rename can take another user's name in different case
      (bob, user 2, renames to "Alice" next to "alice", user 1); the
      renamer's Google login then resolves to an older account, not their own. */
  lemma RenameHijacksLogin(db: Db, victim: UserId, renamer: UserId, newName: string)
    requires victim in db.users && renamer in db.users && victim < renamer
    requires HashMatches(db, db.users[renamer].googleHash) == {renamer}
    requires !IsBlank(newName) && forall u :: u in db.users ==> db.users[u].username != newName
    requires Lower(newName) == Lower(db.users[victim].username)
    ensures ChangeUsername(db, renamer, newName).0 == Ok
    ensures !NamesUniqueFolded(ChangeUsername(db, renamer, newName).1)
    ensures GoogleCallback(ChangeUsername(db, renamer, newName).1, db.users[renamer].googleHash).LoggedIn?
    ensures GoogleCallback(ChangeUsername(db, renamer, newName).1, db.users[renamer].googleHash).id != renamer
  {
    var db1 := ChangeUsername(db, renamer, newName).1;
    var hash := db.users[renamer].googleHash;
    assert HashMatches(db1, hash) == HashMatches(db, hash);
    assert FindUserByHash(db1, hash) == Some(renamer);
    assert victim in NameMatches(db1, newName);
  }

  /** `/changeUsername` with the taken-name check folded to lower case, the
      way registration checks. */
  function ChangeUsernameFolded(db: Db, uid: UserId, newName: string): (r: (Outcome, Db))
  {
    if IsBlank(newName) then (Rejected(EmptyName), db)
    else if uid !in db.users then (Failed, db)
    else if db.users[uid].username == newName then (Rejected(SameName), db)
    else if FindUserByName(db, newName).Some? then (Rejected(NameTaken), db)
    else (Ok, db.(users := db.users[uid := db.users[uid].(username := newName)]))
  }

  /** The folded rename keeps names unique up to case, so logins stay with
      their owners. */
  lemma ChangeUsernameFoldedKeepsNamesUnique(db: Db, uid: UserId, newName: string)
    requires NamesUniqueFolded(db)
    ensures NamesUniqueFolded(ChangeUsernameFolded(db, uid, newName).1)
    ensures ChangeUsernameFolded(db, uid, newName).0 == Ok ==>
      forall u :: u in db.users ==> Lower(db.users[u].username) != Lower(newName)
  {
  }
}

=== FILE: store.dfy ===
/**
  The microblog's SQLite database as an immutable value: the `users`,
  `posts`, `likes` and `reactions` tables, with row ids as map keys and the
  two join tables as sets (a composite key makes a row unique).
 */
module Store {

  datatype Option<T> = None | Some(value: T)

  type UserId = nat
  type PostId = nat

  /** A row of `users`; `googleHash` is the SHA-256 hex digest of the
      provider's subject id, kept opaque. */
  datatype User = User(username: string, googleHash: string, memberSince: int)

  /** A row of `posts`. `author` is the author's username (posts are joined
      to users by that string, not by id) and `likes` is the denormalised
      like counter. */
  datatype Post = Post(title: string, content: string, author: string, timestamp: int, likes: int)

  /** A row of `likes`. */
  datatype Like = Like(user: UserId, post: PostId)

  /** A row of `reactions`; the emoji is an opaque string. */
  datatype Reaction = Reaction(post: PostId, user: UserId, emoji: string)

  datatype Db = Db(
    users: map<UserId, User>,
    posts: map<PostId, Post>,
    likes: set<Like>,
    reactions: set<Reaction>)

  /** Outcome kind of a request, without its HTTP or JSON shape. */
  datatype Reason = EmptyName | SameName | NameTaken
  datatype Outcome = Ok | NotFound | Rejected(reason: Reason) | Failed | NoResponse

  /** The like rows that point at post `p`. */
  function LikesFor(likes: set<Like>, p: PostId): (ls: set<Like>)
    ensures forall l :: l in ls <==> l in likes && l.post == p
  {
    set l | l in likes && l.post == p
  }

  /** The like rows of user `u`. */
  function LikesBy(likes: set<Like>, u: UserId): (ls: set<Like>)
    ensures forall l :: l in ls <==> l in likes && l.user == u
  {
    set l | l in likes && l.user == u
  }

  /** Number of like rows for post `p`: what `COUNT(likes.post_id)` yields. */
  function LikesOn(likes: set<Like>, p: PostId): nat
  {
    |LikesFor(likes, p)|
  }

  /** Every existing post's counter equals the number of its like rows. */
  predicate CountersMatch(db: Db)
  {
    forall p :: p in db.posts ==> db.posts[p].likes == LikesOn(db.likes, p)
  }

  /** No like row points at a post that does not exist. */
  predicate LikesReferencePosts(db: Db)
  {
    forall l :: l in db.likes ==> l.post in db.posts
  }

  predicate Consistent(db: Db)
  {
    CountersMatch(db) && LikesReferencePosts(db)
  }

  /** Adding a like row raises the count of its own post by one and of no other. */
  lemma LikesOnInsert(likes: set<Like>, x: Like, p: PostId)
    requires x !in likes
    ensures LikesOn(likes + {x}, p) == LikesOn(likes, p) + (if x.post == p then 1 else 0)
  {
    if x.post == p {
      assert LikesFor(likes + {x}, p) == LikesFor(likes, p) + {x};
    } else {
      assert LikesFor(likes + {x}, p) == LikesFor(likes, p);
    }
  }

  /** Removing a like row lowers the count of its own post by one and of no other. */
  lemma LikesOnRemove(likes: set<Like>, x: Like, p: PostId)
    requires x in likes
    ensures LikesOn(likes - {x}, p) == LikesOn(likes, p) - (if x.post == p then 1 else 0)
  {
    if x.post == p {
      assert LikesFor(likes, p) == LikesFor(likes - {x}, p) + {x};
    } else {
      assert LikesFor(likes - {x}, p) == LikesFor(likes, p);
    }
  }

  /** Smallest id of a non-empty set: the row a table scan in id order meets first. */
  function MinId(ids: set<nat>): (m: nat)
    requires ids != {}
    ensures m in ids
    ensures forall k :: k in ids ==> m <= k
  {
    MinIdExists(ids);
    var m :| m in ids && forall k :: k in ids ==> m <= k;
    m
  }

  lemma {:induction false} MinIdExists(ids: set<nat>)
    requires ids != {}
    ensures exists m :: m in ids && forall k :: k in ids ==> m <= k
  {
    var x :| x in ids;
    if ids != {x} {
      MinIdExists(ids - {x});
      var m :| m in ids - {x} && forall k :: k in ids - {x} ==> m <= k;
      var least := if x < m then x else m;
      forall k | k in ids
        ensures least <= k
      {
        if k != x {
          assert k in ids - {x};
        }
      }
      assert least in ids;
    } else {
      assert forall k :: k in ids ==> x <= k;
    }
  }
}

=== FILE: text.dfy ===
/**
  String helpers the request handlers rely on: case folding (SQLite's
  `LOWER` and JavaScript's `toLowerCase`) and the blank test done with
  JavaScript's `String.prototype.trim`.
 */
module Text {

  function LowerChar(c: char): (d: char)
    ensures 'A' <= c <= 'Z' ==> d as int == c as int + 32
    ensures !('A' <= c <= 'Z') ==> d == c
  {
    if 'A' <= c <= 'Z' then (c as int + 32) as char else c
  }

  /** ASCII case folding, character by character: the result has no ASCII
      capital left, and every other character stays where it was. */
  function Lower(s: string): (t: string)
    ensures |t| == |s|
    ensures forall i :: 0 <= i < |t| ==> !('A' <= t[i] <= 'Z')
    ensures forall i :: 0 <= i < |s| && !('A' <= s[i] <= 'Z') ==> t[i] == s[i]
    ensures forall i :: 0 <= i < |s| && 'A' <= s[i] <= 'Z' ==> t[i] as int == s[i] as int + 32
  {
    seq(|s|, i requires 0 <= i < |s| => LowerChar(s[i]))
  }

  /** Folding twice is folding once, so comparing folded names is an
      equivalence that a second fold does not change. */
  lemma LowerIdempotent(s: string)
    ensures Lower(Lower(s)) == Lower(s)
  {
  }

  /** Characters `trim` strips: the ECMAScript WhiteSpace and LineTerminator
      code points (tab, vertical tab, form feed, space, no-break space, the
      byte-order mark, the space separators of category Zs, line feed,
      carriage return, line and paragraph separator). */
  predicate IsTrimmed(c: char)
  {
    var n := c as int;
    || 9 <= n <= 13
    || n == 0x20 || n == 0xA0 || n == 0x1680
    || 0x2000 <= n <= 0x200A
    || n == 0x2028 || n == 0x2029 || n == 0x202F || n == 0x205F
    || n == 0x3000 || n == 0xFEFF
  }

  /** `!s || s.trim() === ''`: empty or whitespace only. */
  predicate IsBlank(s: string)
  {
    forall i :: 0 <= i < |s| ==> IsTrimmed(s[i])
  }

  /** `String.prototype.trim`: strip leading, then trailing, whitespace. */
  function TrimStart(s: string): (t: string)
    ensures |t| <= |s| && t == s[|s| - |t|..]
    ensures |t| > 0 ==> !IsTrimmed(t[0])
    ensures forall i :: 0 <= i < |s| - |t| ==> IsTrimmed(s[i])
  {
    if |s| > 0 && IsTrimmed(s[0]) then TrimStart(s[1..]) else s
  }

  function TrimEnd(s: string): (t: string)
    ensures |t| <= |s| && t == s[..|t|]
    ensures |t| > 0 ==> !IsTrimmed(t[|t| - 1])
    ensures forall i :: |t| <= i < |s| ==> IsTrimmed(s[i])
  {
    if |s| > 0 && IsTrimmed(s[|s| - 1]) then TrimEnd(s[..|s| - 1]) else s
  }

  function Trim(s: string): string
  {
    TrimEnd(TrimStart(s))
  }

  /** The blank test is exactly "`trim` leaves nothing". */
  lemma BlankIffTrimEmpty(s: string)
    ensures IsBlank(s) <==> Trim(s) == ""
  {
  }
}
